=== FILE: README.md ===
# Advanced Installer tool provisioning, modelled in Dafny

This project models `AdvinstTool` (`src/advinsttool.ts`), the part of the
Advanced Installer GitHub action that provisions the Advanced Installer
command-line tool on a Windows runner. `getPath`:

1. looks the tool up in the runner's tool cache;
2. on a miss, downloads the MSI (from the `advancedinstaller_url` variable
   when set, from the versioned download URL otherwise), unpacks it with
   `msiexec /a` and stores the folder in the cache;
3. checks that `<root>\bin\x86\advancedinstaller.com` exists;
4. registers the fixed license when one is set; otherwise, when floating
   licensing is on, acquires a floating license;
5. registers the COM server when automation is enabled;
6. exports `AdvancedInstallerRoot` and `AdvancedInstallerMSBuildTargets`,
   adds `<root>\bin\x86` to PATH, and returns the `.com` path.

`GetPath` is a pure function. It takes the tool's configuration (`Config`)
and an environment of oracles (`Env`). It returns the trace of externally
visible effects (`Effect`: downloads, commands with their exit codes, cache
stores, sleeps, exported variables, PATH additions). It also returns either
the `.com` path or the message of the error that ended the run.

JavaScript truthiness is modelled with the empty string:
- a cache miss is `cachedRoot == ""`;
- an unset custom URL is `customUrl == ""`;
- "no fixed license" is `license == ""`.

`util.format` templates are plain concatenations. `%d` of the port is
`Text.Decimal`, whose inverse `Text.Value` is proved in both directions.

Files:
- `results.dfy`: `Result` and `Option`.
- `text.dfy`: decimal numerals and Windows `dirname`.
- `templates.dfy`: the class's static templates and constants.
- `advinst_tool.dfy`: the operations.
- `getpath_properties.dfy`: properties of whole runs.
- `floating_as_written.dfy`: the finding below.

Floating licensing follows lines 166-179, for a runner that returns the
exit code instead of rejecting: one check; on a non-zero exit, one sleep of
`timeoutSeconds` and one more check, whose non-zero exit throws its stdout.
Line 162 makes the runner reject instead (see Findings);
`FloatingAsWritten` models that behaviour.

## Model

| member | source | states |
|---|---|---|
| AdvinstTool.ConstructorDefaults | src/advinsttool.ts:39-55 | omitted constructor arguments mean floating licensing off, host "", port 1024, timeout 180 |
| GetPathProperties.EntryPointNeverFloats | src/main.ts:29-33 | the entry point passes three arguments, so no run ever sleeps or issues the floating check |
| Templates.DownloadUrlRoundTrip | src/advinsttool.ts:19-20 | the version can be read back from the versioned download URL |
| Templates.ComPathShape | src/advinsttool.ts:25-26 | the binary path is the root followed by `\bin\x86\advancedinstaller.com`, with the root as its prefix |
| Templates.MSBuildTargetsPathShape | src/advinsttool.ts:27-28 | the MSBuild targets path is the root followed by `\ProgramFilesFolder\MSBuild\Caphyon\Advanced Installer` |
| Templates.CheckLicenseServerCommandPort | src/advinsttool.ts:29-30 | the port written by `%d` can be read back from the floating check command, whatever the host name |
| Templates.CheckLicenseServerCommandDistinct | src/advinsttool.ts:21-30 | the floating check differs from the registration, COM and extraction commands |
| Templates.RegisterCommandDistinct | src/advinsttool.ts:23-24 | the registration command differs from the COM command |
| Templates.NotFoundMessageOfRoot | src/advinsttool.ts:78-81 | the missing-binary message names `<root>\bin\x86\advancedinstaller.com` |
| Templates.ComPathDirName | src/advinsttool.ts:92 | the model's `dirname` of the binary path is `<root>\bin\x86`, the directory added to PATH (Node agrees except for the roots listed under Left out) |
| Text.ValueOfDecimal | src/advinsttool.ts:30 | reading back the numeral `%d` writes gives the number |
| Text.DecimalOfValue | src/advinsttool.ts:30 | a canonical numeral is exactly what `%d` writes for its value |
| Text.DecimalInjective | src/advinsttool.ts:30 | different ports give different numerals |
| Text.DirNameOfChild | src/advinsttool.ts:92 | the model's `dirname` gives back the non-empty directory a separator-free file name was appended to (Node agrees except for the roots listed under Left out) |
| AdvinstTool.Download | src/advinsttool.ts:97-113 | one download, of the custom URL verbatim when set and otherwise of the versioned URL for the configured version; the result is `downloadTool`'s answer for that URL |
| AdvinstTool.ExportVariables | src/advinsttool.ts:198-204 | exports `AdvancedInstallerRoot` = root, then `AdvancedInstallerMSBuildTargets` = `<root>\ProgramFilesFolder\MSBuild\Caphyon\Advanced Installer` |
| AdvinstTool.DownloadSource | src/advinsttool.ts:97-113 | the custom URL wins when set; otherwise the URL is the versioned one for the configured version |
| AdvinstTool.Checked | src/advinsttool.ts:124-127 | one run of a command; Ok exactly when it exits 0, otherwise the error is its stdout (the same check recurs at lines 144-147 and 191-194) |
| AdvinstTool.Extract | src/advinsttool.ts:115-134 | a failed `msiexec` throws its stdout and stores nothing; success stores the folder as ("advinst", version, "x86") and returns the cache's answer |
| AdvinstTool.Resolve | src/advinsttool.ts:60-73 | a cache hit does nothing and returns the cached root; a miss starts with the download |
| AdvinstTool.Register | src/advinsttool.ts:136-149 | a no-op exactly when there is no license; otherwise one `/RegisterCI` run, Ok exactly when it exits 0, error = its stdout |
| AdvinstTool.RegisterFloating | src/advinsttool.ts:151-181 | a no-op exactly when floating is off; a first exit of 0 means one check; otherwise check, sleep, check, Ok exactly when the second check exits 0; a failure ends with the failed check |
| AdvinstTool.RegisterCom | src/advinsttool.ts:187-196 | a no-op exactly when COM is disabled; otherwise one `/REGSERVER` run, Ok exactly when it exits 0, error = its stdout |
| AdvinstTool.License | src/advinsttool.ts:83-87 | a fixed license selects `register`; otherwise `registerFloating` decides; nothing is exported |
| AdvinstTool.Finish | src/advinsttool.ts:88-94 | a COM failure ends the run; otherwise the trace ends with the two exports and the PATH addition, and the `.com` path is returned |
| AdvinstTool.Provision | src/advinsttool.ts:76-94 | a missing binary throws "Expected to find ..." with no effect; exports happen only as the last three effects of a success |
| AdvinstTool.GetPath | src/advinsttool.ts:57-95 | installation effects come first, untouched; nothing is exported or added to PATH before, or without, success |
| GetPathProperties.InstallEffects | src/advinsttool.ts:60-73 | installation issues at most the extraction, never sleeps, and when it succeeds no command failed |
| GetPathProperties.LicenseEffects | src/advinsttool.ts:83-87 | licensing issues only the registration (fixed) or only the floating check, sleeps at most once for `timeoutSeconds`, and a failure ends with the failed command |
| GetPathProperties.FinishEffects | src/advinsttool.ts:88-92 | after licensing only the COM command is issued, nothing sleeps, and a failure ends with the failed command |
| GetPathProperties.ProvisionEffects | src/advinsttool.ts:76-94 | after installation: no download, only commands against the binary, at most one sleep, and off the floating path no sleep and no floating check |
| GetPathProperties.ProvisionSuccess | src/advinsttool.ts:76-94 | a successful tail checked the binary, returns it, and ends with the exports and the PATH addition |
| GetPathProperties.ProvisionFloating | src/advinsttool.ts:151-181 | on the floating path the tail starts with the first check; a failed first check is followed by the sleep and the second check, whose failure ends the tail with its stdout |
| GetPathProperties.InstallNeverFloats | src/advinsttool.ts:60-73 | installation never issues a floating check |
| GetPathProperties.ProvisionNeverFloats | src/advinsttool.ts:83-87 | with a fixed license or with floating licensing off, the tail never issues the floating check |
| GetPathProperties.SuccessfulRun | src/advinsttool.ts:76-94 | success returns `<root>\bin\x86\advancedinstaller.com`, which exists, and the trace ends with the exports and the PATH addition |
| GetPathProperties.CacheHitSkipsInstall | src/advinsttool.ts:60-73 | on a cache hit nothing is downloaded or cached, and only commands against the cached binary are issued |
| GetPathProperties.CacheMissDownloadsFirst | src/advinsttool.ts:67-70 | on a miss the download comes first, from the right URL; a failed download ends the run with its error; after a successful one the extraction follows |
| GetPathProperties.ExtractionFailureStops | src/advinsttool.ts:125-130 | a failed extraction ends the run after [download, msiexec] with the command's stdout |
| GetPathProperties.ExtractionSuccessCaches | src/advinsttool.ts:124-133 | a successful extraction stores the folder under ("advinst", version, "x86") and continues from the stored root |
| GetPathProperties.MissingBinaryStops | src/advinsttool.ts:76-82 | a missing binary ends the run right after installation with the exact message |
| GetPathProperties.FixedLicenseWins | src/advinsttool.ts:83-84 | with a fixed license: registration comes first after installation, no floating check, no sleep, and a failed registration ends the run with its stdout |
| GetPathProperties.NoLicenseNoLicensingCommand | src/advinsttool.ts:83-92 | with no license at all, the trace is installation, then COM, then the exports |
| GetPathProperties.FloatingAcquisition | src/advinsttool.ts:151-181 | floating path: the exact check command, then either no sleep, or [check, sleep, check] with the second failure ending the run with its stdout |
| GetPathProperties.AtMostOneSleep | src/advinsttool.ts:166-179 | a run sleeps at most once, for `timeoutSeconds`, and only on the floating path |
| GetPathProperties.SuccessMeansNoUnretriedFailure | src/advinsttool.ts:57-95 | in a successful run the only failed command is the first floating check (its retry is `GetPathProperties.RetriedAfterFailedCheck`) |
| GetPathProperties.RetriedAfterFailedCheck | src/advinsttool.ts:163-179 | in a successful run a failed first floating check happened on the floating path, right after installation, and is immediately followed by `Sleep(timeoutSeconds)` and a second check that exited 0 |
| GetPathProperties.FailureEndsWithFailedCommand | src/advinsttool.ts:83-95 | once the binary exists, a failed run ends with the command that failed |
| GetPathProperties.FixedOrNoLicenseNeverFloats | src/advinsttool.ts:83-87 | off the floating path the floating check is never issued |
| FloatingAsWritten.RegisterFloatingAsWritten | src/advinsttool.ts:162-163 | as written: one check, never a sleep; Ok exactly when that check exits 0 |
| FloatingAsWritten.AsWrittenNeverRetries | src/advinsttool.ts:160-177 | if the first check fails and the second would succeed, the code as written fails, while the intended code sleeps and succeeds |
| FloatingAsWritten.AgreeWhenFirstCheckSucceeds | src/advinsttool.ts:177-179 | the two versions agree when the first check exits 0 |
| FloatingAsWritten.BusyServerCounterexample | src/advinsttool.ts:164-165 | concrete input: exit 0xE001006D then 0 |

## Left out

- Logging (`core.info`), `async`/`await` scheduling and real timers are not modelled. `sleep` (lines 183-185) is the `Sleep(seconds)` effect; its conversion to milliseconds is not modelled.
- The library internals are oracles of `Env`:
  - `downloadTool` and `cacheDir` may fail, as `Err` results that end the run;
  - `toolCache.find`, `getVariable`, `exists` and `getRunnerTempDir` never fail in the model (for example, `find` throwing on an empty version is not modelled).
- `join(getRunnerTempDir(), 'advinst')` is the oracle `Env.extractFolder`. Node's path normalisation is not modelled.
- AdvinstTool.GetPath: `core.exportVariable` and `core.addPath` (lines 89, 92, 199-203) never fail in the model. In the source they write to files the runner provides and can throw; a failure of `addPath` would leave both variables already exported while `getPath` fails, which `ExportsLast` does not allow for.
- Text.DirName: only the Windows `dirname` of a path that does not end in a separator is modelled, as "everything before the last separator". Drive roots and UNC roots are not modelled: Node returns a drive or UNC share root with its trailing separator, and returns a path that is itself a bare UNC root (`\\srv\name`) unchanged. On the binary path `<root>\bin\x86\advancedinstaller.com` the two agree for every tool root except a lone `\` or `/`.
- Templates.ComPathDirName: for a tool root of `\` or `/`, the binary path starts with two separators followed by `bin\x86\`. Node reads that prefix as a UNC root and returns it with its trailing separator (`\\bin\x86\` for root `\`); the model gives it without (`\\bin\x86`).
- Text.DirNameOfChild: the lemma holds of the model's `dirname` only. Node differs for `dir` a drive designator (`C:`, giving `C:\`), a UNC share root (`\\srv\share`, giving `\\srv\share\`), and a bare server name `\\srv` or `\\srv\` (for which `\\srv\name` or `\\srv\\name` is a UNC root that Node returns whole).
- Env.exec: a command's outcome depends on its text and on how many times the same step has already run it. A command that fails to start, and so throws inside the runner, is not modelled.
- AdvinstTool.Extract: a non-zero exit gives `Err(stdout)`, as the code's check says. The runner's default options would instead reject earlier with its own message. The outcome is the same (the run stops); only the message differs.
- AdvinstTool.Register: the same holds for the runner's own message (line 145).
- AdvinstTool.RegisterCom: the same holds for the runner's own message (line 191).
- Config.licensePort and Config.timeoutSeconds are natural numbers. Negative or fractional values are not modelled, nor is the 16-bit range of a port. Exit codes are unbounded integers.
- The retry loop that the TODO at lines 168-170 asks for is not modelled, because the code implements one fixed wait instead.
- `src/main.ts` is modelled only through its construction of the tool. Its platform check, input reading, version deprecation warning and the `AdvinstBuilder` build step are not part of this model.

## Findings

| source | as written | input that shows it | evidently intended | confidence | as-written member | corrected member |
|---|---|---|---|---|---|---|
| src/advinsttool.ts:162 | `ignoreReturnCode: false` makes `getExecOutput` reject on any non-zero exit, so the wait-and-retry branch (lines 166-177) is never reached and the run fails at the first busy check | floating licensing on; the first check exits 0xE001006D and the second would exit 0 | `ignoreReturnCode: true`, as the comment on lines 160-161 says: on a non-zero exit, sleep `timeoutSeconds` and check once more | high; not executed | FloatingAsWritten.RegisterFloatingAsWritten, FloatingAsWritten.AsWrittenNeverRetries, FloatingAsWritten.BusyServerCounterexample | AdvinstTool.RegisterFloating |

=== FILE: advinst_tool.dfy ===
/** `AdvinstTool`: provisioning of the Advanced Installer command-line tool.

    `GetPath` is the pure counterpart of the asynchronous `getPath`: given the
    tool's configuration and an abstract environment it returns the trace of
    externally visible effects (downloads, commands, cache stores, sleeps,
    exported variables, PATH additions) together with either the path of the
    `.com` binary or the message of the error that aborted provisioning. */
module AdvinstTool {
  import opened Results
  import opened Text
  import opened Templates

  /** The fields of an `AdvinstTool`, fixed at construction. */
  datatype Config = Config(
    version: string,
    license: string,          // "" when no fixed license is configured
    enableCom: bool,
    floatingLicense: bool,
    licenseHost: string,
    licensePort: nat,
    timeoutSeconds: nat)

  const DefaultLicensePort: nat := 1024
  const DefaultTimeoutSeconds: nat := 180

  /** The constructor: the last four arguments are optional. */
  function NewTool(version: string, license: string, enableCom: bool,
                   floatingLicense: bool := false, licenseHost: string := "",
                   licensePort: nat := DefaultLicensePort,
                   timeoutSeconds: nat := DefaultTimeoutSeconds): Config
  {
    Config(version, license, enableCom, floatingLicense, licenseHost, licensePort, timeoutSeconds)
  }

  /** Omitted arguments: floating licensing off, no license host, port 1024,
      a 180 second timeout. */
  lemma ConstructorDefaults(version: string, license: string, enableCom: bool)
    ensures NewTool(version, license, enableCom)
            == Config(version, license, enableCom, false, "", 1024, 180)
  {
  }

  /** What a command run reports back: its exit code and captured stdout. */
  datatype ExecOutput = ExecOutput(exitCode: int, stdout: string)

  /** The collaborators `getPath` consults, as oracles. */
  datatype Env = Env(
    cachedRoot: string,                                 // the tool cache's `find`; "" on a miss
    customUrl: string,                                  // the variable named `CustomUrlVar`; "" when unset
    download: string -> Result<string>,                 // `downloadTool`: URL to downloaded file, or its error
    extractFolder: string,                              // the `advinst` folder under the runner's temp dir
    cacheDir: (string, string, string, string) -> Result<string>,  // `cacheDir`: cached root, or its error
    fileExists: string -> bool,                         // `exists`
    exec: (string, nat) -> ExecOutput)                  // run `k` (from 0) of a command within the step issuing it

  /** One externally visible effect.  A command is recorded with the exit
      code it returned. */
  datatype Effect =
    | Download(url: string)
    | Exec(command: string, exitCode: int)
    | CacheDir(folder: string, tool: string, version: string, arch: string)
    | Sleep(seconds: nat)
    | ExportVariable(name: string, value: string)
    | AddPath(dir: string)

  /** A command that returned a non-zero exit code. */
  predicate Failed(e: Effect) {
    e.Exec? && e.exitCode != 0
  }

  /** The effects one step produced and what it returned or threw. */
  datatype Step<+T> = Step(effects: seq<Effect>, result: Result<T>)

  /** Run `attempt` of `command`, as recorded in the trace. */
  function Run(env: Env, command: string, attempt: nat): (e: Effect)
    ensures e.Exec? && e.command == command
    ensures Failed(e) <==> env.exec(command, attempt).exitCode != 0
  {
    Exec(command, env.exec(command, attempt).exitCode)
  }

  /** A step that issues `command` once and throws its stdout on a non-zero
      exit: the shape shared by `extract`, `register` and `registerCom`. */
  function Checked(env: Env, command: string): (r: Step<()> )
    ensures r.effects == [Run(env, command, 0)]
    ensures r.result.Ok? <==> !Failed(Run(env, command, 0))
    ensures r.result.Err? ==> r.result.message == env.exec(command, 0).stdout
  {
    var out := env.exec(command, 0);
    Step([Run(env, command, 0)], if out.exitCode != 0 then Err(out.stdout) else Ok(()))
  }

  /** The URL `download` fetches: the custom URL verbatim when one is set,
      the versioned download URL otherwise. */
  function DownloadSource(cfg: Config, env: Env): (url: string)
    ensures env.customUrl != "" ==> url == env.customUrl
    ensures env.customUrl == "" ==> VersionOfUrl(url) == Some(cfg.version)
  {
    if env.customUrl != "" then env.customUrl
    else
      DownloadUrlRoundTrip(cfg.version);
      DownloadUrl(cfg.version)
  }

  /** `download`: fetch the package from `DownloadSource`; a failed download
      throws. */
  function Download(cfg: Config, env: Env): (r: Step<string>)
    ensures |r.effects| == 1 && r.effects[0].Download?
    ensures env.customUrl != "" ==> r.effects[0].url == env.customUrl
    ensures env.customUrl == "" ==> VersionOfUrl(r.effects[0].url) == Some(cfg.version)
    // the downloaded file is what `downloadTool` answers for the URL fetched
    ensures r.result == env.download(r.effects[0].url)
  {
    var url := DownloadSource(cfg, env);
    Step([Effect.Download(url)], env.download(url))
  }

  /** `extract`: unpack the downloaded package with `msiexec` into the
      extraction folder and store that folder in the tool cache. */
  function Extract(cfg: Config, env: Env, setupPath: string): (r: Step<string>)
    ensures
      var run := Run(env, ExtractCommand(setupPath, env.extractFolder), 0);
      && (Failed(run) ==>
            r == Step([run], Err(env.exec(ExtractCommand(setupPath, env.extractFolder), 0).stdout)))
      && (!Failed(run) ==>
            && r.effects == [run, CacheDir(env.extractFolder, "advinst", cfg.version, "x86")]
            && r.result == env.cacheDir(env.extractFolder, "advinst", cfg.version, "x86"))
  {
    var run := Checked(env, ExtractCommand(setupPath, env.extractFolder));
    if run.result.Err? then Step(run.effects, Err(run.result.message))
    else
      var store := CacheDir(env.extractFolder, CacheToolName, cfg.version, CacheToolArch);
      Step(run.effects + [store],
           env.cacheDir(env.extractFolder, CacheToolName, cfg.version, CacheToolArch))
  }

  /** The cache lookup, then on a miss the download and extraction: the root
      of the installed tool. */
  function Resolve(cfg: Config, env: Env): (r: Step<string>)
    ensures env.cachedRoot != "" ==> r == Step([], Ok(env.cachedRoot))
    ensures env.cachedRoot == "" ==>
              && 1 <= |r.effects|
              && r.effects[0] == Effect.Download(DownloadSource(cfg, env))
    ensures Unexported(r.effects)
  {
    if env.cachedRoot != "" then Step([], Ok(env.cachedRoot))
    else
      var d := Download(cfg, env);
      if d.result.Err? then Step(d.effects, Err(d.result.message))
      else
        var x := Extract(cfg, env, d.result.value);
        Step(d.effects + x.effects, x.result)
  }

  /** `register`: the fixed-license registration, a no-op without a license;
      a non-zero exit throws the command's stdout. */
  function Register(cfg: Config, env: Env, toolPath: string): (r: Step<()> )
    ensures cfg.license == "" <==> r.effects == []
    ensures cfg.license != "" ==> r.effects == [Run(env, RegisterCommand(toolPath, cfg.license), 0)]
    ensures r.result.Ok? <==> cfg.license == "" || env.exec(RegisterCommand(toolPath, cfg.license), 0).exitCode == 0
    ensures r.result.Err? ==> r.result.message == env.exec(RegisterCommand(toolPath, cfg.license), 0).stdout
  {
    if cfg.license != "" then Checked(env, RegisterCommand(toolPath, cfg.license))
    else Step([], Ok(()))
  }

  /** `registerFloating`: one attempt to reach the license server; on a
      non-zero exit one sleep of `timeoutSeconds` and one more attempt, whose
      failure throws its stdout.  A no-op when floating licensing is off. */
  function RegisterFloating(cfg: Config, env: Env, toolPath: string): (r: Step<()> )
    ensures !cfg.floatingLicense <==> r.effects == []
    ensures
      var cmd := CheckLicenseServerCommand(toolPath, cfg.licenseHost, cfg.licensePort);
      var first := Run(env, cmd, 0);
      var second := Run(env, cmd, 1);
      && (cfg.floatingLicense && !Failed(first) ==> r == Step([first], Ok(())))
      && (cfg.floatingLicense && Failed(first) ==>
            && r.effects == [first, Sleep(cfg.timeoutSeconds), second]
            && (r.result.Ok? <==> !Failed(second))
            && (r.result.Err? ==> r.result.message == env.exec(cmd, 1).stdout))
    ensures r.result.Err? ==> cfg.floatingLicense && Failed(r.effects[|r.effects| - 1])
  {
    if cfg.floatingLicense then
      var cmd := CheckLicenseServerCommand(toolPath, cfg.licenseHost, cfg.licensePort);
      var first := Run(env, cmd, 0);
      if !Failed(first) then Step([first], Ok(()))
      else
        var out := env.exec(cmd, 1);
        Step([first, Sleep(cfg.timeoutSeconds), Run(env, cmd, 1)],
             if out.exitCode != 0 then Err(out.stdout) else Ok(()))
    else Step([], Ok(()))
  }

  /** `registerCom`: registration of the COM server, a no-op when disabled;
      a non-zero exit throws the command's stdout. */
  function RegisterCom(cfg: Config, env: Env, toolPath: string): (r: Step<()> )
    ensures !cfg.enableCom <==> r.effects == []
    ensures cfg.enableCom ==> r.effects == [Run(env, StartComCommand(toolPath), 0)]
    ensures r.result.Ok? <==> !cfg.enableCom || env.exec(StartComCommand(toolPath), 0).exitCode == 0
    ensures r.result.Err? ==> r.result.message == env.exec(StartComCommand(toolPath), 0).stdout
  {
    if cfg.enableCom then Checked(env, StartComCommand(toolPath))
    else Step([], Ok(()))
  }

  /** The licensing step of `getPath`: a fixed license wins over a floating one. */
  function License(cfg: Config, env: Env, toolPath: string): (r: Step<()> )
    ensures cfg.license != "" ==> r == Register(cfg, env, toolPath)
    ensures cfg.license == "" ==> r == RegisterFloating(cfg, env, toolPath)
    ensures Unexported(r.effects)
  {
    if cfg.license != "" then Register(cfg, env, toolPath)
    else if cfg.floatingLicense then RegisterFloating(cfg, env, toolPath)
    else Step([], Ok(()))
  }

  /** No variable is exported and nothing is added to PATH in `effects`. */
  predicate Unexported(effects: seq<Effect>) {
    forall e :: e in effects ==> !e.ExportVariable? && !e.AddPath?
  }

  /** Variables are exported and PATH is extended only by the last three
      effects, and only when `ok` holds. */
  ghost predicate ExportsLast(effects: seq<Effect>, ok: bool) {
    forall i :: 0 <= i < |effects| && (effects[i].ExportVariable? || effects[i].AddPath?) ==>
      ok && |effects| - 3 <= i
  }

  lemma ExportsLastAppend(a: seq<Effect>, b: seq<Effect>, ok: bool)
    requires Unexported(a)
    requires ExportsLast(b, ok)
    ensures ExportsLast(a + b, ok)
    ensures ExportsLast(a, ok)
  {
  }

  /** The three effects that complete provisioning: the export of the root,
      the export of its MSBuild targets path and the addition of
      `<root>\bin\x86` to PATH, in this order. */
  function Provisioned(toolRoot: string): seq<Effect> {
    [ExportVariable("AdvancedInstallerRoot", toolRoot),
     ExportVariable("AdvancedInstallerMSBuildTargets",
                    toolRoot + "\\ProgramFilesFolder\\MSBuild\\Caphyon\\Advanced Installer"),
     AddPath(toolRoot + "\\bin\\x86")]
  }

  /** `exportVariables`: the install root and the MSBuild targets path. */
  function ExportVariables(toolRoot: string): (r: seq<Effect>)
    ensures r == Provisioned(toolRoot)[..2]
  {
    [ExportVariable(ToolRootVar, toolRoot),
     ExportVariable(MSBuildTargetsVar, MSBuildTargetsPath(toolRoot))]
  }

  /** The tail of `getPath` once licensing succeeded: COM registration, the
      exports and the PATH addition, after which the `.com` binary is returned. */
  function Finish(cfg: Config, env: Env, toolRoot: string): (r: Step<string>)
    ensures
      var com := RegisterCom(cfg, env, ComPath(toolRoot));
      && (com.result.Err? ==> r == Step(com.effects, Err(com.result.message)))
      && (com.result.Ok? ==>
            r == Step(com.effects + Provisioned(toolRoot), Ok(toolRoot + "\\bin\\x86\\advancedinstaller.com")))
    ensures ExportsLast(r.effects, r.result.Ok?)
  {
    var toolPath := ComPath(toolRoot);
    var com := RegisterCom(cfg, env, toolPath);
    ExportsLastAppend(com.effects, [], false);
    if com.result.Err? then Step(com.effects, Err(com.result.message))
    else
      var tail := ExportVariables(toolRoot) + [AddPath(DirName(toolPath))];
      ComPathDirName(toolRoot);
      assert tail == Provisioned(toolRoot);
      ExportsLastAppend(com.effects, tail, true);
      Step(com.effects + tail, Ok(toolPath))
  }

  /** Everything `getPath` does once the tool root is known: the binary
      check, licensing, COM, the exports and the PATH addition. */
  function Provision(cfg: Config, env: Env, toolRoot: string): (r: Step<string>)
    ensures !env.fileExists(ComPath(toolRoot)) ==>
              r == Step([], Err(NotFoundMessage(ComPath(toolRoot))))
    ensures ExportsLast(r.effects, r.result.Ok?)
  {
    var toolPath := ComPath(toolRoot);
    if !env.fileExists(toolPath) then Step([], Err(NotFoundMessage(toolPath)))
    else
      var lic := License(cfg, env, toolPath);
      ExportsLastAppend(lic.effects, [], false);
      if lic.result.Err? then Step(lic.effects, Err(lic.result.message))
      else
        var fin := Finish(cfg, env, toolRoot);
        ExportsLastAppend(lic.effects, fin.effects, fin.result.Ok?);
        Step(lic.effects + fin.effects, fin.result)
  }

  /** `getPath`. */
  function GetPath(cfg: Config, env: Env): (r: Step<string>)
    // installation comes first, untouched
    ensures |Resolve(cfg, env).effects| <= |r.effects|
    ensures r.effects[..|Resolve(cfg, env).effects|] == Resolve(cfg, env).effects
    // nothing is exported or added to PATH before, or without, success
    ensures ExportsLast(r.effects, r.result.Ok?)
  {
    var res := Resolve(cfg, env);
    ExportsLastAppend(res.effects, [], false);
    if res.result.Err? then Step(res.effects, Err(res.result.message))
    else
      var rest := Provision(cfg, env, res.result.value);
      ExportsLastAppend(res.effects, rest.effects, rest.result.Ok?);
      Step(res.effects + rest.effects, rest.result)
  }
}

=== FILE: floating_as_written.dfy ===
/** `registerFloating` as the code is written.  It passes
    `ignoreReturnCode: false` to `getExecOutput`, although the comment above
    that option says the exit code must be ignored so that control comes back.
    With that option the runner rejects the call on any non-zero exit, with an
    error message of its own, before the code that sleeps and retries is
    reached; so the retry never happens.  `AdvinstTool.RegisterFloating` is
    the corrected definition, in which the exit code is returned. */
module FloatingAsWritten {
  import opened Results
  import opened Templates
  import opened AdvinstTool

  /** The runner's rejection for a command and its exit code, as an oracle. */
  type Rejection = (string, int) -> string

  function RegisterFloatingAsWritten(cfg: Config, env: Env, toolPath: string, rejection: Rejection)
    : (r: Step<()> )
    ensures !cfg.floatingLicense <==> r.effects == []
    ensures forall e :: e in r.effects ==> !e.Sleep?
    ensures
      var cmd := CheckLicenseServerCommand(toolPath, cfg.licenseHost, cfg.licensePort);
      && (cfg.floatingLicense ==> r.effects == [Run(env, cmd, 0)])
      && (r.result.Ok? <==> !cfg.floatingLicense || env.exec(cmd, 0).exitCode == 0)
  {
    if cfg.floatingLicense then
      var cmd := CheckLicenseServerCommand(toolPath, cfg.licenseHost, cfg.licensePort);
      var first := Run(env, cmd, 0);
      if Failed(first) then Step([first], Err(rejection(cmd, first.exitCode)))
      else Step([first], Ok(()))
    else Step([], Ok(()))
  }

  /** Whenever the license server is busy at the first check but free at the
      second, the code as written gives up at once, while the intended
      behaviour sleeps `timeoutSeconds` and acquires the license. */
  lemma AsWrittenNeverRetries(cfg: Config, env: Env, toolPath: string, rejection: Rejection)
    requires cfg.floatingLicense
    requires env.exec(CheckLicenseServerCommand(toolPath, cfg.licenseHost, cfg.licensePort), 0).exitCode != 0
    requires env.exec(CheckLicenseServerCommand(toolPath, cfg.licenseHost, cfg.licensePort), 1).exitCode == 0
    ensures RegisterFloatingAsWritten(cfg, env, toolPath, rejection).result.Err?
    ensures |RegisterFloatingAsWritten(cfg, env, toolPath, rejection).effects| == 1
    ensures RegisterFloating(cfg, env, toolPath).result.Ok?
    ensures Sleep(cfg.timeoutSeconds) in RegisterFloating(cfg, env, toolPath).effects
  {
  }

  /** The two agree whenever the first check succeeds. */
  lemma AgreeWhenFirstCheckSucceeds(cfg: Config, env: Env, toolPath: string, rejection: Rejection)
    requires env.exec(CheckLicenseServerCommand(toolPath, cfg.licenseHost, cfg.licensePort), 0).exitCode == 0
    ensures RegisterFloatingAsWritten(cfg, env, toolPath, rejection) == RegisterFloating(cfg, env, toolPath)
  {
  }

  /** The concrete input: exit code 0xE001006D (no license slot available)
      at the first check, 0 at the second. */
  lemma BusyServerCounterexample()
    ensures
      var cfg := NewTool("22.0", "", false, true, "licsrv", 1024, 30);
      var env := Env("C:\\tools\\advinst", "",
                     url => Ok("C:\\tmp\\advinst.msi"), "C:\\tmp\\advinst",
                     (folder, tool, version, arch) => Ok(folder),
                     path => true,
                     (cmd, attempt) => if attempt == 0 then ExecOutput(0xE001006D, "busy")
                                       else ExecOutput(0, ""));
      var toolPath := ComPath("C:\\tools\\advinst");
      var rejection := (cmd: string, code: int) => "The process failed";
      && RegisterFloatingAsWritten(cfg, env, toolPath, rejection).result == Err("The process failed")
      && RegisterFloating(cfg, env, toolPath).result == Ok(())
  {
  }
}

=== FILE: getpath_properties.dfy ===
/** Properties of whole `getPath` runs: what the cache decides, how the
    download source is chosen, where each failure stops the run, which
    licensing path is taken, and how often the floating check is tried. */
module GetPathProperties {
  import opened Results
  import opened Text
  import opened Templates
  import opened AdvinstTool

  /** The root the run works on, once resolved. */
  function RootOf(cfg: Config, env: Env): Result<string> {
    Resolve(cfg, env).result
  }

  /** The commands installation may issue: the extraction of the downloaded
      package, and only on a cache miss whose download succeeded. */
  function InstallCommands(cfg: Config, env: Env): set<string> {
    if env.cachedRoot == "" && env.download(DownloadSource(cfg, env)).Ok?
    then {ExtractCommand(env.download(DownloadSource(cfg, env)).value, env.extractFolder)}
    else {}
  }

  /** The commands `getPath` may issue against the binary of a given root. */
  function ToolCommands(cfg: Config, toolRoot: string): set<string> {
    var toolPath := ComPath(toolRoot);
    {RegisterCommand(toolPath, cfg.license),
     CheckLicenseServerCommand(toolPath, cfg.licenseHost, cfg.licensePort),
     StartComCommand(toolPath)}
  }

  // Properties of traces.

  /** Nothing is downloaded or stored in the tool cache. */
  predicate NoInstall(t: seq<Effect>) {
    forall e :: e in t ==> !e.Download? && !e.CacheDir?
  }

  /** Every command issued is one of `cs`. */
  predicate IssuesOnly(t: seq<Effect>, cs: set<string>) {
    forall e :: e in t && e.Exec? ==> e.command in cs
  }

  /** `c` is never issued. */
  predicate NeverIssues(t: seq<Effect>, c: string) {
    forall e :: e in t && e.Exec? ==> e.command != c
  }

  /** Nothing sleeps. */
  predicate NoSleep(t: seq<Effect>) {
    forall e :: e in t ==> !e.Sleep?
  }

  /** Every sleep lasts `seconds`. */
  predicate SleepsFor(t: seq<Effect>, seconds: nat) {
    forall e :: e in t && e.Sleep? ==> e == Sleep(seconds)
  }

  /** No command failed. */
  predicate NoFailure(t: seq<Effect>) {
    forall e :: e in t ==> !Failed(e)
  }

  /** Every command that failed is `f`. */
  predicate FailuresAre(t: seq<Effect>, f: Effect) {
    forall e :: e in t && Failed(e) ==> e == f
  }

  lemma TraceAppend(a: seq<Effect>, b: seq<Effect>, cs: set<string>, seconds: nat)
    ensures NoInstall(a) && NoInstall(b) ==> NoInstall(a + b)
    ensures IssuesOnly(a, cs) && IssuesOnly(b, cs) ==> IssuesOnly(a + b, cs)
    ensures NoSleep(a) && NoSleep(b) ==> NoSleep(a + b)
    ensures SleepsFor(a, seconds) && SleepsFor(b, seconds) ==> SleepsFor(a + b, seconds)
  {
  }

  lemma FailuresAppend(a: seq<Effect>, b: seq<Effect>, f: Effect)
    ensures FailuresAre(a, f) && FailuresAre(b, f) ==> FailuresAre(a + b, f)
    ensures FailuresAre(a, f) && NoFailure(b) ==> FailuresAre(a + b, f)
    ensures NoFailure(a) && FailuresAre(b, f) ==> FailuresAre(a + b, f)
  {
  }

  lemma NoSleepCount(t: seq<Effect>, seconds: nat)
    requires NoSleep(t)
    ensures multiset(t)[Sleep(seconds)] == 0
  {
    assert Sleep(seconds) !in t;
  }

  lemma IssuesOnlyExcludes(t: seq<Effect>, cs: set<string>, c: string)
    requires IssuesOnly(t, cs)
    requires c !in cs
    ensures NeverIssues(t, c)
  {
  }

  lemma IssuesOnlyWiden(t: seq<Effect>, cs: set<string>, ds: set<string>)
    requires IssuesOnly(t, cs)
    requires cs <= ds
    ensures IssuesOnly(t, ds)
  {
  }

  // Properties of the steps.

  /** Installation issues at most the extraction command and never sleeps;
      when it succeeds, no command failed. */
  lemma InstallEffects(cfg: Config, env: Env)
    ensures
      var res := Resolve(cfg, env);
      && IssuesOnly(res.effects, InstallCommands(cfg, env))
      && NoSleep(res.effects)
      && (res.result.Ok? ==> NoFailure(res.effects))
  {
  }

  /** The licensing step downloads nothing, issues only the registration
      command under a fixed license and only the floating check otherwise, and
      sleeps at most once, for `timeoutSeconds`, on the floating path; when it
      succeeds, the only command that may have failed is the first floating
      check, and then the second check succeeded after the sleep. */
  lemma LicenseEffects(cfg: Config, env: Env, toolPath: string)
    ensures
      var lic := License(cfg, env, toolPath);
      var floating := CheckLicenseServerCommand(toolPath, cfg.licenseHost, cfg.licensePort);
      var first := Run(env, floating, 0);
      && NoInstall(lic.effects)
      && SleepsFor(lic.effects, cfg.timeoutSeconds)
      && multiset(lic.effects)[Sleep(cfg.timeoutSeconds)] <= 1
      && (cfg.license != "" ==>
            && IssuesOnly(lic.effects, {RegisterCommand(toolPath, cfg.license)})
            && NoSleep(lic.effects))
      && (cfg.license == "" ==> IssuesOnly(lic.effects, {floating}))
      && (cfg.license == "" && !cfg.floatingLicense ==> lic == Step([], Ok(())))
      && (lic.result.Ok? ==>
            && FailuresAre(lic.effects, first)
            && (Failed(first) && first in lic.effects ==>
                  Sleep(cfg.timeoutSeconds) in lic.effects && Exec(floating, 0) in lic.effects))
      && (lic.result.Err? ==> 1 <= |lic.effects| && Failed(lic.effects[|lic.effects| - 1]))
  {
    var lic := License(cfg, env, toolPath);
    if cfg.license != "" {
      assert lic.effects == [Run(env, RegisterCommand(toolPath, cfg.license), 0)];
    } else if cfg.floatingLicense {
      var floating := CheckLicenseServerCommand(toolPath, cfg.licenseHost, cfg.licensePort);
      var first := Run(env, floating, 0);
      var second := Run(env, floating, 1);
      if !Failed(first) {
        assert lic == Step([first], Ok(()));
      } else {
        assert lic.effects == [first, Sleep(cfg.timeoutSeconds), second];
        assert multiset(lic.effects)[Sleep(cfg.timeoutSeconds)] == 1;
      }
    } else {
      assert lic == Step([], Ok(()));
    }
  }

  /** After licensing only the COM registration command is issued and nothing
      is downloaded and nothing sleeps; when the tail succeeds, no command failed. */
  lemma FinishEffects(cfg: Config, env: Env, toolRoot: string)
    ensures
      var fin := Finish(cfg, env, toolRoot);
      && NoInstall(fin.effects)
      && IssuesOnly(fin.effects, {StartComCommand(ComPath(toolRoot))})
      && NoSleep(fin.effects)
      && (fin.result.Ok? ==> NoFailure(fin.effects))
      && (fin.result.Err? ==> 1 <= |fin.effects| && Failed(fin.effects[|fin.effects| - 1]))
  {
  }

  /** Everything after installation downloads nothing, issues only commands
      against the binary, and sleeps at most once, for `timeoutSeconds`; off
      the floating path it never sleeps and never issues the floating check. */
  lemma ProvisionEffects(cfg: Config, env: Env, toolRoot: string)
    ensures
      var rest := Provision(cfg, env, toolRoot);
      var toolPath := ComPath(toolRoot);
      && NoInstall(rest.effects)
      && IssuesOnly(rest.effects, ToolCommands(cfg, toolRoot))
      && SleepsFor(rest.effects, cfg.timeoutSeconds)
      && multiset(rest.effects)[Sleep(cfg.timeoutSeconds)] <= 1
      && (!(cfg.license == "" && cfg.floatingLicense) ==>
            && NoSleep(rest.effects)
            && IssuesOnly(rest.effects, {RegisterCommand(toolPath, cfg.license), StartComCommand(toolPath)}))
  {
    var toolPath := ComPath(toolRoot);
    var rest := Provision(cfg, env, toolRoot);
    var s := cfg.timeoutSeconds;
    var cs := ToolCommands(cfg, toolRoot);
    var ds := {RegisterCommand(toolPath, cfg.license), StartComCommand(toolPath)};
    if env.fileExists(toolPath) {
      var lic := License(cfg, env, toolPath);
      LicenseEffects(cfg, env, toolPath);
      if cfg.license != "" {
        IssuesOnlyWiden(lic.effects, {RegisterCommand(toolPath, cfg.license)}, cs);
        IssuesOnlyWiden(lic.effects, {RegisterCommand(toolPath, cfg.license)}, ds);
      } else {
        IssuesOnlyWiden(lic.effects, {CheckLicenseServerCommand(toolPath, cfg.licenseHost, cfg.licensePort)}, cs);
      }
      if lic.result.Ok? {
        var fin := Finish(cfg, env, toolRoot);
        FinishEffects(cfg, env, toolRoot);
        IssuesOnlyWiden(fin.effects, {StartComCommand(toolPath)}, cs);
        IssuesOnlyWiden(fin.effects, {StartComCommand(toolPath)}, ds);
        NoSleepCount(fin.effects, s);
        TraceAppend(lic.effects, fin.effects, cs, s);
        TraceAppend(lic.effects, fin.effects, ds, s);
        assert rest.effects == lic.effects + fin.effects;
      }
    }
  }

  /** A run whose root resolved is installation followed by `Provision`, and,
      once the binary is in place, licensing followed by `Finish` when
      licensing succeeds. */
  lemma Phases(cfg: Config, env: Env)
    requires RootOf(cfg, env).Ok?
    ensures
      var res := Resolve(cfg, env);
      var root := res.result.value;
      var rest := Provision(cfg, env, root);
      var lic := License(cfg, env, ComPath(root));
      var fin := Finish(cfg, env, root);
      && GetPath(cfg, env) == Step(res.effects + rest.effects, rest.result)
      && (env.fileExists(ComPath(root)) && lic.result.Err? ==>
            rest == Step(lic.effects, Err(lic.result.message)))
      && (env.fileExists(ComPath(root)) && lic.result.Ok? ==>
            rest == Step(lic.effects + fin.effects, fin.result))
  {
  }

  // Properties of whole runs.

  lemma SuffixOfAppend(a: seq<Effect>, b: seq<Effect>, n: nat)
    requires n <= |b|
    ensures (a + b)[|a + b| - n..] == b[|b| - n..]
  {
  }

  /** Lifts the end of a successful tail `rest` to the whole trace `pre + rest`. */
  lemma SuccessLift(pre: seq<Effect>, rest: Step<string>, r: Step<string>, toolRoot: string)
    requires r == Step(pre + rest.effects, rest.result)
    requires rest.result.Ok?
    requires rest.result.value == toolRoot + "\\bin\\x86\\advancedinstaller.com"
    requires 3 <= |rest.effects| && rest.effects[|rest.effects| - 3..] == Provisioned(toolRoot)
    ensures r.result.Ok? && r.result.value == toolRoot + "\\bin\\x86\\advancedinstaller.com"
    ensures 3 <= |r.effects| && r.effects[|r.effects| - 3..] == Provisioned(toolRoot)
  {
    SuffixOfAppend(pre, rest.effects, 3);
  }

  /** A successful `Provision` checked the binary, returns it and ends with
      the exports and the PATH addition. */
  lemma ProvisionSuccess(cfg: Config, env: Env, toolRoot: string)
    requires Provision(cfg, env, toolRoot).result.Ok?
    ensures
      var rest := Provision(cfg, env, toolRoot);
      && env.fileExists(ComPath(toolRoot))
      && rest.result.value == toolRoot + "\\bin\\x86\\advancedinstaller.com"
      && 3 <= |rest.effects|
      && rest.effects[|rest.effects| - 3..] == Provisioned(toolRoot)
  {
    var lic := License(cfg, env, ComPath(toolRoot));
    var fin := Finish(cfg, env, toolRoot);
    SuffixOfAppend(lic.effects, fin.effects, 3);
  }

  /** A successful run returns `<root>\bin\x86\advancedinstaller.com` for the
      resolved root, after checking that it exists, and its last three effects
      export the root and the MSBuild targets path and add `<root>\bin\x86` to
      PATH. */
  lemma SuccessfulRun(cfg: Config, env: Env)
    requires GetPath(cfg, env).result.Ok?
    ensures RootOf(cfg, env).Ok?
    ensures
      var root := RootOf(cfg, env).value;
      var r := GetPath(cfg, env);
      && r.result.value == root + "\\bin\\x86\\advancedinstaller.com"
      && env.fileExists(r.result.value)
      && 3 <= |r.effects|
      && r.effects[|r.effects| - 3..] == Provisioned(root)
  {
    var res := Resolve(cfg, env);
    var root := res.result.value;
    var rest := Provision(cfg, env, root);
    assert GetPath(cfg, env) == Step(res.effects + rest.effects, rest.result);
    ProvisionSuccess(cfg, env, root);
    ComPathShape(root);
    SuccessLift(res.effects, rest, GetPath(cfg, env), root);
  }

  /** On a cache hit nothing is downloaded, extracted or stored in the cache:
      every command issued is a licensing or COM command of the cached binary. */
  lemma CacheHitSkipsInstall(cfg: Config, env: Env)
    requires env.cachedRoot != ""
    ensures NoInstall(GetPath(cfg, env).effects)
    ensures IssuesOnly(GetPath(cfg, env).effects, ToolCommands(cfg, env.cachedRoot))
  {
    var root := env.cachedRoot;
    assert Resolve(cfg, env) == Step([], Ok(root));
    assert GetPath(cfg, env).effects == [] + Provision(cfg, env, root).effects;
    ProvisionEffects(cfg, env, root);
  }

  /** On a cache miss the first effect is the download, from the custom URL
      verbatim when one is set, from the versioned URL otherwise; a failed
      download ends the run with its error and nothing else. */
  lemma CacheMissDownloadsFirst(cfg: Config, env: Env)
    requires env.cachedRoot == ""
    ensures
      var url := if env.customUrl != "" then env.customUrl
                 else "https://www.advancedinstaller.com/downloads/" + cfg.version + "/advinst.msi";
      && 1 <= |GetPath(cfg, env).effects|
      && GetPath(cfg, env).effects[0] == Download(url)
      && (env.download(url).Err? ==>
            GetPath(cfg, env) == Step([Download(url)], Err(env.download(url).message)))
      && (env.download(url).Ok? ==>
            && 2 <= |GetPath(cfg, env).effects|
            && GetPath(cfg, env).effects[1].Exec?
            && GetPath(cfg, env).effects[1].command
               == "msiexec /a \"" + env.download(url).value + "\" TARGETDIR=\"" + env.extractFolder + "\" /qn")
  {
  }

  /** A non-zero exit of the extraction ends the run with the command's
      stdout, after the download and the command and nothing else: in
      particular nothing is stored in the cache. */
  lemma ExtractionFailureStops(cfg: Config, env: Env)
    requires env.cachedRoot == ""
    requires env.download(DownloadSource(cfg, env)).Ok?
    requires env.exec(ExtractCommand(env.download(DownloadSource(cfg, env)).value, env.extractFolder), 0).exitCode != 0
    ensures
      var cmd := ExtractCommand(env.download(DownloadSource(cfg, env)).value, env.extractFolder);
      GetPath(cfg, env)
      == Step([Download(DownloadSource(cfg, env)), Exec(cmd, env.exec(cmd, 0).exitCode)],
              Err(env.exec(cmd, 0).stdout))
  {
  }

  /** A successful extraction stores the extraction folder in the cache under
      ("advinst", version, "x86"), and the run goes on from the stored root. */
  lemma ExtractionSuccessCaches(cfg: Config, env: Env)
    requires env.cachedRoot == ""
    requires env.download(DownloadSource(cfg, env)).Ok?
    requires env.exec(ExtractCommand(env.download(DownloadSource(cfg, env)).value, env.extractFolder), 0).exitCode == 0
    ensures
      var cmd := ExtractCommand(env.download(DownloadSource(cfg, env)).value, env.extractFolder);
      && Resolve(cfg, env).effects
         == [Download(DownloadSource(cfg, env)), Exec(cmd, 0),
             CacheDir(env.extractFolder, "advinst", cfg.version, "x86")]
      && RootOf(cfg, env) == env.cacheDir(env.extractFolder, "advinst", cfg.version, "x86")
  {
  }

  /** A missing binary ends the run with "Expected to find <path>, but it was
      not found." right after installation: no licensing, COM, export or PATH
      effect follows. */
  lemma MissingBinaryStops(cfg: Config, env: Env)
    requires RootOf(cfg, env).Ok?
    requires !env.fileExists(RootOf(cfg, env).value + "\\bin\\x86\\advancedinstaller.com")
    ensures GetPath(cfg, env)
            == Step(Resolve(cfg, env).effects,
                    Err("Expected to find " + RootOf(cfg, env).value
                        + "\\bin\\x86\\advancedinstaller.com, but it was not found."))
  {
    var res := Resolve(cfg, env);
    var root := res.result.value;
    ComPathShape(root);
    NotFoundMessageOfRoot(root);
    assert Provision(cfg, env, root) == Step([], Err(NotFoundMessage(ComPath(root))));
    assert res.effects + [] == res.effects;
  }

  /** With a fixed license, `<toolPath> /RegisterCI <license>` is the first
      command after installation, after it only the COM registration may be
      issued, the floating check is never issued and nothing sleeps, even when
      floating licensing is also on; a non-zero exit of the registration ends
      the run with its stdout. */
  lemma FixedLicenseWins(cfg: Config, env: Env)
    requires cfg.license != ""
    requires RootOf(cfg, env).Ok?
    requires env.fileExists(ComPath(RootOf(cfg, env).value))
    ensures
      var res := Resolve(cfg, env);
      var toolPath := ComPath(res.result.value);
      var cmd := RegisterCommand(toolPath, cfg.license);
      var r := GetPath(cfg, env);
      && |res.effects| < |r.effects|
      && r.effects[|res.effects|] == Exec(toolPath + " /RegisterCI " + cfg.license, env.exec(cmd, 0).exitCode)
      && IssuesOnly(r.effects[|res.effects|..], {cmd, StartComCommand(toolPath)})
      && NeverIssues(r.effects, CheckLicenseServerCommand(toolPath, cfg.licenseHost, cfg.licensePort))
      && NoSleep(r.effects)
      && (env.exec(cmd, 0).exitCode != 0 ==>
            r == Step(res.effects + [Exec(cmd, env.exec(cmd, 0).exitCode)], Err(env.exec(cmd, 0).stdout)))
  {
    var res := Resolve(cfg, env);
    var root := res.result.value;
    var toolPath := ComPath(root);
    var cmd := RegisterCommand(toolPath, cfg.license);
    var floating := CheckLicenseServerCommand(toolPath, cfg.licenseHost, cfg.licensePort);
    var cs := {cmd, StartComCommand(toolPath)};
    var all := InstallCommands(cfg, env) + cs;
    var t := GetPath(cfg, env).effects;
    Phases(cfg, env);
    InstallEffects(cfg, env);
    LicenseEffects(cfg, env, toolPath);
    var lic := License(cfg, env, toolPath);
    var rest := Provision(cfg, env, root);
    assert lic.effects == [Run(env, cmd, 0)];
    assert t[|res.effects|..] == rest.effects;
    IssuesOnlyWiden(lic.effects, {cmd}, cs);
    if lic.result.Ok? {
      var fin := Finish(cfg, env, root);
      FinishEffects(cfg, env, root);
      IssuesOnlyWiden(fin.effects, {StartComCommand(toolPath)}, cs);
      TraceAppend(lic.effects, fin.effects, cs, 0);
    }
    IssuesOnlyWiden(res.effects, InstallCommands(cfg, env), all);
    IssuesOnlyWiden(rest.effects, cs, all);
    TraceAppend(res.effects, rest.effects, all, 0);
    CheckLicenseServerCommandDistinct(toolPath, cfg.licenseHost, cfg.licensePort, cfg.license, "", "");
    if env.cachedRoot == "" && env.download(DownloadSource(cfg, env)).Ok? {
      CheckLicenseServerCommandDistinct(toolPath, cfg.licenseHost, cfg.licensePort, cfg.license,
                                        env.download(DownloadSource(cfg, env)).value, env.extractFolder);
    }
    IssuesOnlyExcludes(t, all, floating);
  }

  /** Without a fixed license and with floating licensing off, no licensing
      command is issued: after installation come only the COM registration,
      when enabled, and the exports. */
  lemma NoLicenseNoLicensingCommand(cfg: Config, env: Env)
    requires cfg.license == "" && !cfg.floatingLicense
    requires RootOf(cfg, env).Ok?
    requires env.fileExists(ComPath(RootOf(cfg, env).value))
    ensures
      var res := Resolve(cfg, env);
      var root := res.result.value;
      var com := RegisterCom(cfg, env, ComPath(root));
      GetPath(cfg, env).effects
      == res.effects + com.effects + (if com.result.Ok? then Provisioned(root) else [])
  {
  }

  /** Lifts what the floating path does after installation to the whole
      trace `pre + rest`. */
  lemma FloatingLift(pre: seq<Effect>, rest: Step<string>, r: Step<string>,
                     first: Effect, sleep: Effect, second: Effect, msg: string,
                     firstOk: bool, secondOk: bool)
    requires r == Step(pre + rest.effects, rest.result)
    requires NoSleep(pre)
    requires 1 <= |rest.effects| && rest.effects[0] == first
    requires firstOk ==> NoSleep(rest.effects)
    requires !firstOk ==>
               && 3 <= |rest.effects|
               && rest.effects[..3] == [first, sleep, second]
               && (!secondOk ==> rest == Step([first, sleep, second], Err(msg)))
    ensures |pre| < |r.effects| && r.effects[|pre|] == first
    ensures firstOk ==> NoSleep(r.effects)
    ensures !firstOk ==>
              && |pre| + 3 <= |r.effects|
              && r.effects[|pre|..|pre| + 3] == [first, sleep, second]
              && (!secondOk ==> r == Step(pre + [first, sleep, second], Err(msg)))
  {
    if firstOk {
      TraceAppend(pre, rest.effects, {}, 0);
    } else {
      assert r.effects[|pre|..|pre| + 3] == rest.effects[..3];
    }
  }

  /** Floating acquisition, from the binary check on. */
  lemma ProvisionFloating(cfg: Config, env: Env, toolRoot: string)
    requires cfg.license == "" && cfg.floatingLicense
    requires env.fileExists(ComPath(toolRoot))
    ensures
      var cmd := CheckLicenseServerCommand(ComPath(toolRoot), cfg.licenseHost, cfg.licensePort);
      var rest := Provision(cfg, env, toolRoot);
      var first := Exec(cmd, env.exec(cmd, 0).exitCode);
      var second := Exec(cmd, env.exec(cmd, 1).exitCode);
      && 1 <= |rest.effects|
      && rest.effects[0] == first
      && (env.exec(cmd, 0).exitCode == 0 ==> NoSleep(rest.effects))
      && (env.exec(cmd, 0).exitCode != 0 ==>
            && 3 <= |rest.effects|
            && rest.effects[..3] == [first, Sleep(cfg.timeoutSeconds), second]
            && (env.exec(cmd, 1).exitCode != 0 ==>
                  rest == Step([first, Sleep(cfg.timeoutSeconds), second], Err(env.exec(cmd, 1).stdout))))
  {
    var toolPath := ComPath(toolRoot);
    var lic := License(cfg, env, toolPath);
    var rest := Provision(cfg, env, toolRoot);
    assert lic == RegisterFloating(cfg, env, toolPath);
    if lic.result.Ok? {
      var fin := Finish(cfg, env, toolRoot);
      FinishEffects(cfg, env, toolRoot);
      assert rest.effects == lic.effects + fin.effects;
      assert rest.effects[..|lic.effects|] == lic.effects;
      if env.exec(CheckLicenseServerCommand(toolPath, cfg.licenseHost, cfg.licensePort), 0).exitCode == 0 {
        assert NoSleep(lic.effects);
        TraceAppend(lic.effects, fin.effects, {}, 0);
      }
    }
  }

  /** Floating acquisition (no fixed license, floating licensing on): the
      check command is issued right after installation; when it exits 0 it is
      issued once and nothing sleeps; otherwise it is followed by one sleep of
      `timeoutSeconds` and one more attempt, whose non-zero exit ends the run
      with that attempt's stdout. */
  lemma FloatingAcquisition(cfg: Config, env: Env)
    requires cfg.license == "" && cfg.floatingLicense
    requires RootOf(cfg, env).Ok?
    requires env.fileExists(ComPath(RootOf(cfg, env).value))
    ensures
      var res := Resolve(cfg, env);
      var toolPath := ComPath(res.result.value);
      var cmd := CheckLicenseServerCommand(toolPath, cfg.licenseHost, cfg.licensePort);
      var k := |res.effects|;
      var r := GetPath(cfg, env);
      var first := Exec(cmd, env.exec(cmd, 0).exitCode);
      var second := Exec(cmd, env.exec(cmd, 1).exitCode);
      && cmd == toolPath + " /registerfloating " + cfg.licenseHost + ":" + Decimal(cfg.licensePort)
                + " -testconnection"
      && k < |r.effects|
      && r.effects[k] == first
      && (env.exec(cmd, 0).exitCode == 0 ==> NoSleep(r.effects))
      && (env.exec(cmd, 0).exitCode != 0 ==>
            && k + 3 <= |r.effects|
            && r.effects[k..k + 3] == [first, Sleep(cfg.timeoutSeconds), second]
            && (env.exec(cmd, 1).exitCode != 0 ==>
                  r == Step(res.effects + [first, Sleep(cfg.timeoutSeconds), second],
                            Err(env.exec(cmd, 1).stdout))))
  {
    var res := Resolve(cfg, env);
    var root := res.result.value;
    var rest := Provision(cfg, env, root);
    var cmd := CheckLicenseServerCommand(ComPath(root), cfg.licenseHost, cfg.licensePort);
    assert GetPath(cfg, env) == Step(res.effects + rest.effects, rest.result);
    ProvisionFloating(cfg, env, root);
    InstallEffects(cfg, env);
    FloatingLift(res.effects, rest, GetPath(cfg, env),
                 Exec(cmd, env.exec(cmd, 0).exitCode), Sleep(cfg.timeoutSeconds), Exec(cmd, env.exec(cmd, 1).exitCode),
                 env.exec(cmd, 1).stdout, env.exec(cmd, 0).exitCode == 0, env.exec(cmd, 1).exitCode == 0);
  }

  /** Whatever the configuration and environment, the run sleeps at most once,
      for `timeoutSeconds`, and only on the floating path. */
  lemma AtMostOneSleep(cfg: Config, env: Env)
    ensures SleepsFor(GetPath(cfg, env).effects, cfg.timeoutSeconds)
    ensures !(cfg.license == "" && cfg.floatingLicense) ==> NoSleep(GetPath(cfg, env).effects)
    ensures multiset(GetPath(cfg, env).effects)[Sleep(cfg.timeoutSeconds)] <= 1
  {
    var s := cfg.timeoutSeconds;
    var res := Resolve(cfg, env);
    InstallEffects(cfg, env);
    NoSleepCount(res.effects, s);
    if res.result.Ok? {
      var rest := Provision(cfg, env, res.result.value);
      assert GetPath(cfg, env).effects == res.effects + rest.effects;
      ProvisionEffects(cfg, env, res.result.value);
      TraceAppend(res.effects, rest.effects, {}, s);
    }
  }

  /** Fail fast, success side: in a successful run the only command that may
      have failed is the first floating check (which `RetriedAfterFailedCheck`
      shows was then retried successfully after the sleep). */
  lemma SuccessMeansNoUnretriedFailure(cfg: Config, env: Env)
    requires GetPath(cfg, env).result.Ok?
    ensures RootOf(cfg, env).Ok?
    ensures
      var toolPath := ComPath(RootOf(cfg, env).value);
      var cmd := CheckLicenseServerCommand(toolPath, cfg.licenseHost, cfg.licensePort);
      FailuresAre(GetPath(cfg, env).effects, Run(env, cmd, 0))
  {
    var res := Resolve(cfg, env);
    var root := res.result.value;
    var toolPath := ComPath(root);
    var cmd := CheckLicenseServerCommand(toolPath, cfg.licenseHost, cfg.licensePort);
    var first := Run(env, cmd, 0);
    var rest := Provision(cfg, env, root);
    var lic := License(cfg, env, toolPath);
    var fin := Finish(cfg, env, root);
    Phases(cfg, env);
    InstallEffects(cfg, env);
    LicenseEffects(cfg, env, toolPath);
    FinishEffects(cfg, env, root);
    assert rest.effects == lic.effects + fin.effects;
    FailuresAppend(lic.effects, fin.effects, first);
    FailuresAppend(res.effects, rest.effects, first);
  }

  /** In a successful run, a failed first floating check happened on the
      floating path, right after installation, and was followed by the sleep
      and a second check that exited 0. */
  lemma RetriedAfterFailedCheck(cfg: Config, env: Env)
    requires GetPath(cfg, env).result.Ok?
    ensures RootOf(cfg, env).Ok?
    ensures
      var cmd := CheckLicenseServerCommand(ComPath(RootOf(cfg, env).value), cfg.licenseHost, cfg.licensePort);
      var first := Run(env, cmd, 0);
      var k := |Resolve(cfg, env).effects|;
      var t := GetPath(cfg, env).effects;
      Failed(first) && first in t ==>
        && cfg.license == "" && cfg.floatingLicense
        && k + 3 <= |t|
        && t[k..k + 3] == [first, Sleep(cfg.timeoutSeconds), Exec(cmd, 0)]
  {
    var res := Resolve(cfg, env);
    var root := res.result.value;
    var rest := Provision(cfg, env, root);
    var cmd := CheckLicenseServerCommand(ComPath(root), cfg.licenseHost, cfg.licensePort);
    var first := Run(env, cmd, 0);
    var t := GetPath(cfg, env).effects;
    assert GetPath(cfg, env) == Step(res.effects + rest.effects, rest.result);
    if Failed(first) && first in t {
      if !(cfg.license == "" && cfg.floatingLicense) {
        FixedOrNoLicenseNeverFloats(cfg, env);
        assert false;
      }
      assert env.fileExists(ComPath(root));
      FloatingAcquisition(cfg, env);
    }
  }

  /** Fail fast, failure side: once the binary is in place, a failed run ends
      with the command that failed. */
  lemma FailureEndsWithFailedCommand(cfg: Config, env: Env)
    requires GetPath(cfg, env).result.Err?
    requires RootOf(cfg, env).Ok?
    requires env.fileExists(ComPath(RootOf(cfg, env).value))
    ensures 1 <= |GetPath(cfg, env).effects|
    ensures Failed(GetPath(cfg, env).effects[|GetPath(cfg, env).effects| - 1])
  {
  }

  lemma NeverIssuesAppend(a: seq<Effect>, b: seq<Effect>, c: string)
    requires NeverIssues(a, c) && NeverIssues(b, c)
    ensures NeverIssues(a + b, c)
  {
  }

  /** Installation never issues a licensing command of any binary. */
  lemma InstallNeverFloats(cfg: Config, env: Env, toolPath: string)
    ensures NeverIssues(Resolve(cfg, env).effects,
                        CheckLicenseServerCommand(toolPath, cfg.licenseHost, cfg.licensePort))
  {
    InstallEffects(cfg, env);
    if env.cachedRoot == "" && env.download(DownloadSource(cfg, env)).Ok? {
      CheckLicenseServerCommandDistinct(toolPath, cfg.licenseHost, cfg.licensePort, cfg.license,
                                        env.download(DownloadSource(cfg, env)).value, env.extractFolder);
    }
    IssuesOnlyExcludes(Resolve(cfg, env).effects, InstallCommands(cfg, env),
                       CheckLicenseServerCommand(toolPath, cfg.licenseHost, cfg.licensePort));
  }

  /** Off the floating path, everything after installation never issues the
      floating check. */
  lemma ProvisionNeverFloats(cfg: Config, env: Env, toolRoot: string)
    requires !(cfg.license == "" && cfg.floatingLicense)
    ensures NeverIssues(Provision(cfg, env, toolRoot).effects,
                        CheckLicenseServerCommand(ComPath(toolRoot), cfg.licenseHost, cfg.licensePort))
  {
    var toolPath := ComPath(toolRoot);
    ProvisionEffects(cfg, env, toolRoot);
    CheckLicenseServerCommandDistinct(toolPath, cfg.licenseHost, cfg.licensePort, cfg.license, "", "");
    IssuesOnlyExcludes(Provision(cfg, env, toolRoot).effects,
                       {RegisterCommand(toolPath, cfg.license), StartComCommand(toolPath)},
                       CheckLicenseServerCommand(toolPath, cfg.licenseHost, cfg.licensePort));
  }

  /** Off the floating path the floating check is never issued. */
  lemma FixedOrNoLicenseNeverFloats(cfg: Config, env: Env)
    requires !(cfg.license == "" && cfg.floatingLicense)
    requires RootOf(cfg, env).Ok?
    ensures NeverIssues(GetPath(cfg, env).effects,
                        CheckLicenseServerCommand(ComPath(RootOf(cfg, env).value),
                                                  cfg.licenseHost, cfg.licensePort))
  {
    var res := Resolve(cfg, env);
    var root := res.result.value;
    var rest := Provision(cfg, env, root);
    var floating := CheckLicenseServerCommand(ComPath(root), cfg.licenseHost, cfg.licensePort);
    assert GetPath(cfg, env).effects == res.effects + rest.effects;
    InstallNeverFloats(cfg, env, ComPath(root));
    ProvisionNeverFloats(cfg, env, root);
    NeverIssuesAppend(res.effects, rest.effects, floating);
  }

  /** The entry point builds the tool from three inputs, so the constructor
      defaults apply: floating licensing is off, the license server is
      ":1024" with a 180 second timeout, and no run ever sleeps or issues the
      floating check. */
  lemma EntryPointNeverFloats(version: string, license: string, enableComInput: string, env: Env)
    ensures
      var cfg := NewTool(version, license, enableComInput == "true");
      && cfg == Config(version, license, enableComInput == "true", false, "", 1024, 180)
      && NoSleep(GetPath(cfg, env).effects)
      && (RootOf(cfg, env).Ok? ==>
            NeverIssues(GetPath(cfg, env).effects,
                        CheckLicenseServerCommand(ComPath(RootOf(cfg, env).value), "", 1024)))
  {
    var cfg := NewTool(version, license, enableComInput == "true");
    AtMostOneSleep(cfg, env);
    if RootOf(cfg, env).Ok? {
      FixedOrNoLicenseNeverFloats(cfg, env);
    }
  }
}

=== FILE: results.dfy ===
/** Success or failure of one provisioning step.  A failure carries the
    message of the `Error` the TypeScript code throws; every thrown error
    propagates unchanged to the caller of `getPath`. */
module Results {

  datatype Result<+T> = Ok(value: T) | Err(message: string)

  datatype Option<+T> = None | Some(value: T)
}

=== FILE: templates.dfy ===
/** The static templates and constants of `AdvinstTool`.  `util.format`
    substitutes each argument verbatim for its `%s`, and writes the port of
    `%d` in decimal, so every template is a plain concatenation. */
module Templates {
  import opened Results
  import opened Text

  const CustomUrlVar := "advancedinstaller_url"
  const CacheToolName := "advinst"
  const CacheToolArch := "x86"
  const MSBuildTargetsVar := "AdvancedInstallerMSBuildTargets"
  const ToolRootVar := "AdvancedInstallerRoot"

  const UrlPrefix := "https://www.advancedinstaller.com/downloads/"
  const UrlSuffix := "/advinst.msi"
  const ComSubPath := "\\bin\\x86\\advancedinstaller.com"
  const MSBuildSubPath := "\\ProgramFilesFolder\\MSBuild\\Caphyon\\Advanced Installer"
  const FloatingSuffix := " -testconnection"

  function DownloadUrl(version: string): string {
    UrlPrefix + version + UrlSuffix
  }

  function ExtractCommand(setupPath: string, targetDir: string): string {
    "msiexec /a \"" + setupPath + "\" TARGETDIR=\"" + targetDir + "\" /qn"
  }

  function RegisterCommand(toolPath: string, license: string): string {
    toolPath + " /RegisterCI " + license
  }

  function StartComCommand(toolPath: string): string {
    toolPath + " /REGSERVER"
  }

  function ComPath(toolRoot: string): string {
    toolRoot + ComSubPath
  }

  function MSBuildTargetsPath(toolRoot: string): string {
    toolRoot + MSBuildSubPath
  }

  function CheckLicenseServerCommand(toolPath: string, host: string, port: nat): string {
    toolPath + " /registerfloating " + host + ":" + Decimal(port) + FloatingSuffix
  }

  function NotFoundMessage(path: string): string {
    "Expected to find " + path + ", but it was not found."
  }

  /** Reads the version back out of a canonical download URL. */
  function VersionOfUrl(url: string): (r: Option<string>)
    ensures r.Some? ==> DownloadUrl(r.value) == url
  {
    if |UrlPrefix| + |UrlSuffix| <= |url|
       && url[..|UrlPrefix|] == UrlPrefix
       && url[|url| - |UrlSuffix|..] == UrlSuffix
    then
      var v := url[|UrlPrefix|..|url| - |UrlSuffix|];
      assert url == url[..|UrlPrefix|] + v + url[|url| - |UrlSuffix|..];
      Some(v)
    else None
  }

  /** The canonical URL determines the version it was built from. */
  lemma DownloadUrlRoundTrip(version: string)
    ensures VersionOfUrl(DownloadUrl(version)) == Some(version)
  {
  }

  /** The `.com` binary is exactly the root followed by `\bin\x86\advancedinstaller.com`,
      and the root is its prefix. */
  lemma ComPathShape(toolRoot: string)
    ensures ComPath(toolRoot) == toolRoot + "\\bin\\x86\\advancedinstaller.com"
    ensures ComPath(toolRoot)[..|toolRoot|] == toolRoot
  {
  }

  /** The message for a missing binary, spelled out for a root. */
  lemma NotFoundMessageOfRoot(toolRoot: string)
    ensures NotFoundMessage(ComPath(toolRoot))
            == "Expected to find " + toolRoot + "\\bin\\x86\\advancedinstaller.com, but it was not found."
  {
  }

  /** The MSBuild targets path is exactly the root followed by
      `\ProgramFilesFolder\MSBuild\Caphyon\Advanced Installer`. */
  lemma MSBuildTargetsPathShape(toolRoot: string)
    ensures MSBuildTargetsPath(toolRoot)
            == toolRoot + "\\ProgramFilesFolder\\MSBuild\\Caphyon\\Advanced Installer"
    ensures MSBuildTargetsPath(toolRoot)[..|toolRoot|] == toolRoot
  {
  }

  const BinaryName := "advancedinstaller.com"

  lemma BinaryNameHasNoSeparator()
    ensures NoSeparator(BinaryName)
  {
  }

  /** The directory of the `.com` binary, which is what gets added to PATH,
      is `<root>\bin\x86`. */
  lemma ComPathDirName(toolRoot: string)
    ensures DirName(ComPath(toolRoot)) == toolRoot + "\\bin\\x86"
  {
    BinaryNameHasNoSeparator();
    assert ComPath(toolRoot) == (toolRoot + "\\bin\\x86") + "\\" + BinaryName;
    DirNameOfChild(toolRoot + "\\bin\\x86", BinaryName);
  }

  /** The suffix of `s` after its last occurrence of `c` (all of `s` if none). */
  function AfterLast(s: string, c: char): (t: string)
    ensures |t| <= |s|
    ensures c !in t
    ensures t == s[|s| - |t|..]
  {
    if |s| == 0 then ""
    else if s[|s| - 1] == c then ""
    else
      var t := AfterLast(s[..|s| - 1], c);
      assert s[..|s| - 1][|s| - 1 - |t|..] + [s[|s| - 1]] == s[|s| - 1 - |t|..];
      t + [s[|s| - 1]]
  }

  lemma {:induction false} AfterLastOfAppend(a: string, c: char, b: string)
    requires c !in b
    ensures AfterLast(a + [c] + b, c) == b
    decreases |b|
  {
    var s := a + [c] + b;
    if |b| == 0 {
      assert s[|s| - 1] == c;
    } else {
      var init := b[..|b| - 1];
      assert s[|s| - 1] == b[|b| - 1] != c;
      assert s[..|s| - 1] == a + [c] + init;
      AfterLastOfAppend(a, c, init);
      assert AfterLast(s, c) == init + [b[|b| - 1]];
      assert b == init + [b[|b| - 1]];
    }
  }

  /** Reads the port back out of a floating-license check command. */
  function PortOfCommand(cmd: string): (r: Option<nat>)
  {
    if |FloatingSuffix| <= |cmd| && cmd[|cmd| - |FloatingSuffix|..] == FloatingSuffix then
      var digits := AfterLast(cmd[..|cmd| - |FloatingSuffix|], ':');
      if Canonical(digits) then Some(Value(digits)) else None
    else None
  }

  /** The `%d` in the floating-license check command writes the port so that
      it can be read back unambiguously, whatever the host name contains. */
  lemma CheckLicenseServerCommandPort(toolPath: string, host: string, port: nat)
    ensures PortOfCommand(CheckLicenseServerCommand(toolPath, host, port)) == Some(port)
  {
    var cmd := CheckLicenseServerCommand(toolPath, host, port);
    var head := toolPath + " /registerfloating " + host;
    var digits := Decimal(port);
    assert cmd == head + [':'] + digits + FloatingSuffix;
    assert cmd[|cmd| - |FloatingSuffix|..] == FloatingSuffix;
    assert cmd[..|cmd| - |FloatingSuffix|] == head + [':'] + digits;
    assert ':' !in digits;
    AfterLastOfAppend(head, ':', digits);
    ValueOfDecimal(port);
  }

  /** The floating check command differs from every other command the
      provisioner issues for the same binary, and from every extraction command. */
  lemma CheckLicenseServerCommandDistinct(toolPath: string, host: string, port: nat,
                                          license: string, setupPath: string, targetDir: string)
    ensures CheckLicenseServerCommand(toolPath, host, port) != RegisterCommand(toolPath, license)
    ensures CheckLicenseServerCommand(toolPath, host, port) != StartComCommand(toolPath)
    ensures CheckLicenseServerCommand(toolPath, host, port) != ExtractCommand(setupPath, targetDir)
  {
    var f := CheckLicenseServerCommand(toolPath, host, port);
    var k := |toolPath| + 2;
    assert f[k] == 'r';
    assert RegisterCommand(toolPath, license)[k] == 'R';
    assert StartComCommand(toolPath)[k] == 'R';
    var x := ExtractCommand(setupPath, targetDir);
    assert f[|f| - 2] == 'o';
    assert x[|x| - 2] == 'q';
  }

  /** The fixed-license command differs from the COM registration command. */
  lemma RegisterCommandDistinct(toolPath: string, license: string)
    ensures RegisterCommand(toolPath, license) != StartComCommand(toolPath)
  {
  }
}

=== FILE: text.dfy ===
/** The two pieces of Node's standard library that shape the strings of the
    provisioner: `%d` of `util.format` applied to a natural number, and
    `path.dirname` on Windows paths. */
module Text {

  predicate IsDigit(c: char) {
    '0' <= c <= '9'
  }

  predicate AllDigits(s: string) {
    forall i :: 0 <= i < |s| ==> IsDigit(s[i])
  }

  /** A decimal numeral as `%d` writes one: at least one digit, no leading zero. */
  predicate Canonical(s: string) {
    && 1 <= |s|
    && AllDigits(s)
    && (1 < |s| ==> s[0] != '0')
  }

  function DigitChar(d: nat): (c: char)
    requires d < 10
    ensures IsDigit(c)
  {
    ('0' as int + d) as char
  }

  function DigitValue(c: char): (d: nat)
    requires IsDigit(c)
    ensures d < 10
    ensures DigitChar(d) == c
  {
    c as int - '0' as int
  }

  /** `%d` applied to a non-negative integral number. */
  function Decimal(n: nat): (s: string)
    ensures Canonical(s)
    ensures n < 10 <==> |s| == 1
    decreases n
  {
    if n < 10 then [DigitChar(n)] else Decimal(n / 10) + [DigitChar(n % 10)]
  }

  /** The number a string of decimal digits denotes (the reading direction). */
  function Value(s: string): nat
    requires AllDigits(s)
  {
    if |s| == 0 then 0 else Value(s[..|s| - 1]) * 10 + DigitValue(s[|s| - 1])
  }

  lemma {:induction false} ValueOfDecimal(n: nat)
    ensures Value(Decimal(n)) == n
    decreases n
  {
    var s := Decimal(n);
    if n < 10 {
      assert s[..|s| - 1] == [];
      assert DigitValue(DigitChar(n)) == n;
    } else {
      ValueOfDecimal(n / 10);
      assert s[..|s| - 1] == Decimal(n / 10);
      assert DigitValue(DigitChar(n % 10)) == n % 10;
    }
  }

  lemma {:induction false} LeadingNonZeroIsPositive(s: string)
    requires 1 <= |s| && AllDigits(s) && s[0] != '0'
    ensures 1 <= Value(s)
    decreases |s|
  {
    if 1 < |s| {
      LeadingNonZeroIsPositive(s[..|s| - 1]);
    }
  }

  lemma {:induction false} DecimalOfValue(s: string)
    requires Canonical(s)
    ensures Decimal(Value(s)) == s
    decreases |s|
  {
    var last := s[|s| - 1];
    var d := DigitValue(last);
    if |s| == 1 {
      assert s[..0] == [];
    } else {
      var init := s[..|s| - 1];
      LeadingNonZeroIsPositive(init);
      DecimalOfValue(init);
      var v := Value(s);
      assert v == Value(init) * 10 + d;
      assert v / 10 == Value(init) && v % 10 == d;
      assert s == init + [last];
    }
  }

  /** The numerals `%d` writes are in one-to-one correspondence with the naturals. */
  lemma DecimalInjective(m: nat, n: nat)
    requires Decimal(m) == Decimal(n)
    ensures m == n
  {
    ValueOfDecimal(m);
    ValueOfDecimal(n);
  }

  predicate IsSeparator(c: char) {
    c == '\\' || c == '/'
  }

  predicate NoSeparator(s: string) {
    forall i :: 0 <= i < |s| ==> !IsSeparator(s[i])
  }

  /** Index of the last path separator of `p`, or -1 when it has none. */
  function LastSeparator(p: string): (k: int)
    ensures -1 <= k < |p|
    ensures 0 <= k ==> IsSeparator(p[k])
    ensures forall i :: k < i < |p| ==> !IsSeparator(p[i])
  {
    if |p| == 0 then -1
    else if IsSeparator(p[|p| - 1]) then |p| - 1
    else LastSeparator(p[..|p| - 1])
  }

  /** `path.dirname` (Windows flavour) for a path that does not end in a
      separator: everything before the last separator, the bare root when
      that separator is the first character, and "." when there is none. */
  function DirName(p: string): string {
    var k := LastSeparator(p);
    if k < 0 then "." else if k == 0 then p[..1] else p[..k]
  }

  /** `dirname` undoes appending one separator-free file name to a directory. */
  lemma DirNameOfChild(dir: string, name: string)
    requires 1 <= |dir|
    requires NoSeparator(name)
    ensures DirName(dir + "\\" + name) == dir
  {
    var p := dir + "\\" + name;
    var k := LastSeparator(p);
    assert IsSeparator(p[|dir|]);
    assert forall i :: |dir| < i < |p| ==> p[i] == name[i - |dir| - 1];
    assert k == |dir|;
    assert p[..k] == dir;
  }
}
